=== FILE: README.md ===
# Camera-roll picker bookkeeping, in Dafny

A model of the bookkeeping inside the `CameraRollPicker` component of
react-native-camera-roll-picker (`index.js`). The component shows the device's
photo library as a grid. It pages photos in with a cursor, and it tracks which
grid indices and images the user has selected, up to a maximum or one at a
time. Every handler is written as a pure function from the old state to the
new state. Host callbacks and photo-library requests become values in the
result. A callback value records the contents of the array it was passed
at the time of the call.

Modules:

- `Js` (`js.dfy`): the JavaScript built-ins the handlers rely on. These are
  `null`/`undefined` as `None` where the code does not tell them apart, a
  string prop that keeps them apart for strict equality, the truthiness of an
  optional string,
  `Array.prototype.indexOf`, and `splice(start, 1)` with its negative-start
  rule.
- `Rows` (`rows.dfy`): the helper `nEveryRow`, which cuts a list into rows
  of `n` cells and pads the last row with `null`. The component's two calls
  of it (index.js:162, 237) are commented out. The grid that is rendered is a
  `FlatList` with `numColumns` (index.js:324-326), which does its own layout.
- `Picker` (`picker.dfy`): photo-library records, props (with the default
  props) and component state, plus the state the constructor builds. The
  state also records what the host's `selected` array holds, because the
  component keeps that very array as `selectedImages` and changes it in place.
- `Selection` (`selection.dfy`): `selectImage`, the tap handler. Its results
  are the new selection and the `callbackMaximum`/`callback` calls it makes.
- `Paging` (`paging.dfy`): `appendImages`, and the success handler of
  `doFetch`, which calls `requestAlbums` first when the list is empty.
- `Fetching` (`fetching.dfy`): the `fetch` guard, `onEndReached`,
  `componentDidUpdate`'s album-switch reset and the `getPhotos` options that
  `doFetch` builds.

The platform (`Platform.OS`) is a parameter. A photo-library page is an input
value. Requests that go out are results. A rejected `getPhotos` is modelled
as the state staying as `fetch` left it, because the code only logs the error.

## Behaviour of the code worth knowing

- `callback` is called with `selected`, the list of selected grid indices
  (index.js:240). The default `callback` names that parameter
  `selectedImages` (index.js:404), but it receives indices, not images. It
  is also called when the maximum rejects a tap.
- A reset fetch (`updated`) builds its request from the current cursor like
  any other (index.js:191-193). So after an album switch, the first request
  asks for photos after the old album's cursor. It does not start from the
  beginning (`Fetching.ResetReusesCursor`).
- A failed `getPhotos` is only logged (index.js:200). `loadingMore` stays
  `true`, so no later non-reset fetch goes out; only a reset does
  (`Fetching.FailedFetchBlocksScrolling`).
- `requestAlbums` runs on every non-reset completion while the photo list is
  still empty, not only on the first fetch (`Fetching.AlbumsWhileEmpty`).
  `requestAlbums` has no default, so a host that leaves it out gets a
  TypeError on the first page. That page is then never shown, and scrolling
  does not fetch (`Fetching.FirstPage`). An album switch gets the picker
  going again: the reset's completion does not call `requestAlbums`
  (`Fetching.AlbumSwitchRecovers`).
- Deselection finds the image to drop by URI. When the URI is not among the
  selected images, `indexOf` gives -1 and `splice(-1, 1)` drops the last
  selected image (`Selection.MissingUriDropsLast`).
- Deselecting an index that has no photo throws on `images[index].node`.
  By then the index list has already been spliced in place
  (`Selection.Toggle.Crashed`).
- `selectedImages` starts out as the host's `selected` array itself
  (index.js:60). In multi mode, taps push into it and splice it in place
  (index.js:218, 226). A reset assigns `this.props.selected` back
  (index.js:154), so it gets the same, already changed, array. The album
  switch therefore clears the selected indices but keeps the selected images
  (`Fetching.ResetKeepsTappedImages`, `Fetching.AlbumSwitchKeepsTappedImage`).
  Only single-item mode builds a new array (index.js:221-222).
- The two selection lists are parallel: position `k` of `selectedImages`
  holds the image of the photo whose index is at position `k` of
  `selected` (`Picker.Paired`). This holds from a picker built without
  preselected images (`Picker.InitialPaired`). It survives any taps on the
  grid's photos when their URIs are distinct (`Selection.TapsKeepPaired`),
  and any non-reset page (`Paging.AppendKeepsPaired`). Preselected images and
  a reset that keeps the images break it, as the bullets around this one
  describe.
- Images passed in the initial `selected` prop are not selected indices.
  The grid marks a photo only by its index (index.js:254), so it does not
  mark them. A tap on such a photo is a fresh tap and adds a second copy of
  the image (`Fetching.InitialSelectionDuplicated`). Those images do not count
  toward `maximum`, which bounds only the index list (index.js:224). A later
  deselection removes the first image with the photo's URI
  (`Selection.DeselectRemovesFirstMatch`).
- `componentDidUpdate` compares `groupName` with `!==` (index.js:128). Going
  from no `groupName` (`undefined`) to `null` therefore counts as a change and
  sends a reset request (`Fetching.NullAfterUndefinedResets`).

## Model

| member | source | states |
|---|---|---|
| `Js.IndexOf` | index.js:209 | `selected.indexOf(index)`: -1 exactly when the value is absent, otherwise a position holding the value with no earlier occurrence |
| `Js.Splice1` | index.js:212-218 | `splice(k, 1)`: one element fewer when the clamped start is inside the list, the whole list when the start is past the end, the last element dropped for start -1, and no element that was not there before |
| `Js.SpliceFirstIsWithout` | index.js:209-212 | on a duplicate-free list, splicing out the first occurrence equals filtering the value out, which keeps the remaining order and removes exactly one element |
| `Rows.FullRows` | index.js:36-42 | the loop closes only full rows of `n` non-null cells; closed rows plus the open row are the input in order; the open row holds 1 to `n` cells unless the input is empty |
| `Rows.PadRow` | index.js:44-48 | the open row is extended with exactly `n - len` nulls |
| `Rows.NEveryRow` | index.js:32-52 | no rows for empty input; every row has exactly `n` cells; there are ceil(len/n) rows; the rows laid end to end are the input followed by fewer than `n` nulls; nulls occur only in the last row; dropping the nulls gives the input back |
| `Selection.SelectImage` | index.js:203-241 | only the selection lists and the host's array change; the only failure is deselecting an index with no photo; a fresh index replaces the selection with new arrays in single-item mode, is appended to both lists below the maximum, and leaves the state unchanged at the maximum; the calls made are exactly `callbackMaximum()` for a refused index when the host supplied one, followed by `callback(selected, image)` with the resulting indices |
| `Selection.DeselectRemovesOne` | index.js:209-218 | tapping a selected index removes one occurrence of it (as a multiset) and at most one image, and every remaining image was selected before; a crash leaves the images untouched |
| `Selection.DeselectRemovesFirstMatch` | index.js:215-218 | whatever URIs repeat, a deselection removes exactly the first selected image carrying the photo's URI, and the images before and after it keep their order |
| `Selection.PairedUris` | index.js:209-218 | on paired lists with distinct indices over photos with distinct URIs, a selected photo's URI occurs among the selected images, each URI once, and a fresh photo's URI does not: the hypotheses of `Selection.DeselectRemovesImage` and of the whole-state half of `Selection.ToggleTwiceRestores` |
| `Selection.DeselectRemovesImage` | index.js:209-218 | when the photo's URI is among the selected images, each URI once, exactly the image with that URI goes and the other images keep their order |
| `Selection.FollowsHostArray` | index.js:203-232 | a fresh index in single-item mode stops sharing the host's array; every other tap keeps sharing it, and while shared the host's array holds exactly the new selected images; an array no longer shared is left alone |
| `Selection.MaximumCallback` | index.js:224-240 | `callbackMaximum` fires exactly when a fresh multi-mode index meets the maximum and the host supplied one; `callback` still fires after it with the unchanged indices |
| `Selection.DeselectKeepsOrder` | index.js:209-212 | with no duplicate indices, deselecting leaves exactly the other indices, in their order |
| `Selection.ToggleTwiceRestores` | index.js:209-226 | selecting a fresh index below the maximum and tapping it again restores the indices; for the grid's own photo with a URI not selected yet, and the host's array in step with the selected images, the whole state comes back |
| `Selection.MissingUriDropsLast` | index.js:215-218 | when the photo's URI is missing from the selected images, the deselection drops the last selected image |
| `Selection.KeepsMaximum` | index.js:219-231 | in multi mode a tap never takes the index list above the maximum |
| `Selection.SingleAtMostOne` | index.js:220-222 | in single-item mode the index list stays at most one long, and a fresh index replaces it with itself |
| `Selection.KeepsNoDup` | index.js:209-226 | a tap never introduces a duplicate index |
| `Selection.TapsKeepInvariant` | index.js:203-241 | over any sequence of taps, the index list stays duplicate-free and within the maximum (within one in single-item mode) |
| `Selection.PairedFresh` | index.js:219-232 | a tap on a fresh grid photo keeps the two selection lists paired, whether it replaces, appends or is refused |
| `Selection.PairedDeselect` | index.js:209-218 | on paired lists over photos with distinct URIs, deselecting never crashes and keeps the lists paired, because the image found by URI sits at the index's position |
| `Selection.TapKeepsPaired` | index.js:203-241 | any tap on a grid photo keeps the lists paired when the photos' URIs are distinct |
| `Selection.TapsKeepPaired` | index.js:203-241 | over any sequence of taps on the grid's photos, the lists stay paired |
| `Selection.TapsShareHostArray` | index.js:218-226 | in multi mode, after any sequence of taps, `selectedImages` is still the host's array if it was at the start, and the two hold the same images |
| `Selection.MaximumTwoScenario` | index.js:203-241 | with maximum 2, tapping A, B, C, A selects [A], then [A, B], rejects C with both callbacks, and leaves [B] |
| `Paging.AppendImages` | index.js:144-166 | loading ends; `noMore` is the negation of `has_next_page`; a reset replaces the photos with the page, clears the selected indices and takes back the host's `selected` array with its current contents, which earlier taps may have changed; otherwise the old photos stay as a prefix, the page follows in order, and the selection is kept; the cursor moves to the page's end cursor only on a non-empty page |
| `Paging.Complete` | index.js:195-200 | the handler throws (state unchanged) exactly on a non-reset completion into an empty list without `requestAlbums`; otherwise it requests albums exactly in that situation and then appends the page |
| `Paging.AppendKeepsPaired` | index.js:144-166 | a non-reset page keeps every selected index naming the same photo, so paired lists stay paired |
| `Paging.AccumulateAppends` | index.js:157 | after a run of non-reset pages, the photos are the old ones followed by every page's photos in fetch order; the selection and the host's array are untouched; `noMore` reflects the last page |
| `Paging.AccumulateCursor` | index.js:160-163 | after a run of pages, the cursor is the end cursor of the last page with photos, or the old cursor when every page was empty |
| `Paging.ResetThenAppend` | index.js:152-157 | a reset followed by more pages holds exactly the photos fetched since the reset, with no index selected and the host's array, as it stood at the reset, as the selected images |
| `Fetching.RequestParams` | index.js:174-193 | the request asks for 1000 photos of the configured asset type; `after` is present exactly for a truthy cursor, `groupName` exactly for a truthy group name, and `groupTypes` is absent on Android |
| `Fetching.Fetch` | index.js:168-172 | a request goes out exactly when none is in flight or it is a reset; sending one marks loading and builds it from the current cursor; otherwise nothing changes |
| `Fetching.OnEndReached` | index.js:138-142 | scrolling to the end does nothing once `noMore` is set, and is a non-reset fetch otherwise |
| `Fetching.DidUpdate` | index.js:127-130 | a `groupName` not strictly equal to the previous one (`undefined`, `null` and each string all distinct) sends a reset request built from the new props; any other prop change sends nothing |
| `Fetching.NullAfterUndefinedResets` | index.js:127-130 | going from an absent `groupName` to `null` sends a reset request |
| `Fetching.AlbumSwitchResets` | index.js:127-166 | after an album switch, the returning page replaces the photos, clears the selected indices and requests no albums |
| `Fetching.OverlapSuppressed` | index.js:168-172 | while a request is in flight, a second non-reset fetch sends nothing and changes nothing, but a reset still goes out |
| `Fetching.ExhaustedStopsScrolling` | index.js:138-151 | after a page without a next page, scrolling to the end sends nothing and changes nothing, while a reset still goes out |
| `Fetching.ResumesFromCursor` | index.js:151-193 | after a page with a next page, scrolling sends a request; it resumes after that page's end cursor when the page had photos and a truthy cursor, and from the previous cursor when the page was empty |
| `Fetching.ResetReusesCursor` | index.js:168-193 | a reset request carries the held cursor as `after` |
| `Fetching.FailedFetchBlocksScrolling` | index.js:168-200 | after a failed non-reset request, scrolling and further non-reset fetches send nothing; a reset still goes out |
| `Fetching.FirstRequestFromStart` | index.js:58-67 | the mount-time fetch of a new picker goes out without a cursor and marks loading |
| `Fetching.FirstPage` | index.js:195-200 | with `requestAlbums`, the first page requests albums and is shown; without it the picker stays loading and the next scroll does not fetch |
| `Fetching.AlbumSwitchRecovers` | index.js:127-200 | after that throw, switching album sends a reset request whose completion skips `requestAlbums`, shows the page, clears both loading flags, and lets the next scroll fetch when the page has a next page |
| `Fetching.AlbumsWhileEmpty` | index.js:197-198 | an empty page keeps the list empty, so the next non-reset completion requests albums again |
| `Fetching.ResetKeepsTappedImages` | index.js:152-155 | in multi mode, after any taps on a state that shares the host's array, a reset clears the selected indices but keeps exactly the selected images |
| `Fetching.AlbumSwitchKeepsTappedImage` | index.js:127-241 | with default `selected`, loading a page, tapping photo 0 and switching album leaves no index selected but photo 0's image still selected |
| `Fetching.InitialSelectionDuplicated` | index.js:58-226 | with the host passing `[a]` as `selected`, the first tap on a's photo after the first page is a fresh index and leaves `[a, a]` as the selected images |
| `Picker.Mutated` | index.js:218-226 | an in-place change of `selectedImages`: nothing else in the state changes, the host's array takes the same contents while the two are shared and is untouched otherwise, and the two stay in step |
| `Picker.DefaultProps` | index.js:392-413 | maximum 15, multi mode, a `callbackMaximum`, no `requestAlbums`, `selected` `[]`, `groupTypes` 'SavedPhotos', no `groupName`, `assetType` 'Photos' |
| `Picker.InitialPaired` | index.js:58-62 | a picker built without preselected images starts with paired selection lists |
| `Picker.Initial` | index.js:55-67 | the constructor's state: nothing loaded, loading, no index selected, no cursor, and the host's `selected` array as the selected images |

## Left out

- `componentWillMount` and the permission request (index.js:89-125): a
  platform permission check and alert. The model starts from the state the
  constructor builds and treats the mount-time call as `fetch(undefined)`.
- `componentWillReceiveProps` (index.js:132-136): it stores the host's
  `selected` prop, a list of images, into the index list `selected`. React
  calls it on every re-render the host causes. That includes the re-render
  that brings a new `groupName` (before index.js:127-129), and one that
  follows a `callback` that sets the host's state. Afterwards `selected` is
  the host's image array. While `selectedImages` still shares that array,
  the next fresh tap pushes both the index and the image into the same
  array (index.js:225-226). The model's index list holds integers, so this
  mixed state is not represented. `Selection.TapAll`,
  `Selection.TapsKeepInvariant`, `Selection.TapsShareHostArray` and
  `Fetching.ResetKeepsTappedImages` describe only runs of taps with no host
  re-render between them.
- `Selection.Call`: a `SelectionChanged` value records the contents of
  `selected` at the time of the call. The source passes its own live array
  (index.js:240). Later taps push into it and splice it in place
  (index.js:212, 225), until a reset (index.js:153) or a fresh single-item
  tap (index.js:221) installs a new one. A host that keeps the array sees
  those changes; the model does not show them.
- `_getAlbums` and the `getPhotos` call itself (index.js:76-87, 195): native
  photo-library calls. A page is an input, and a failure leaves the state
  unchanged.
- `render`, `renderImage`, `renderRow`, `renderFooterSpinner`
  (index.js:243-351) and ImageItem.js: React element construction and
  floating-point layout.
- `setState` batching and the order in which asynchronous completions arrive.
  Each handler is one synchronous step, so a stale non-reset completion
  landing after a reset is not modelled as a race. Each completion is a
  separate `Paging.Complete` step.
- A host that later passes a different `selected` array: the model's state
  tracks the array passed to the constructor and does not model a new one
  arriving through props.
- The default `selected: []` (index.js:403) is one array shared by every
  picker that uses it. Each model state tracks its own copy, so one picker's
  taps are not seen by another picker.
- The `data` state field (index.js:66): it is set to `[]` and its only
  assignments, from `nEveryRow`, are commented out. The `imagesPerRow` prop is
  read only for rendering (index.js:248, 264, 277, 284), which is left out
  above. The other `propTypes` beyond the defaults in `Picker.DefaultProps`
  are also left out.
- JavaScript number corner cases: `maximum`, `index` and the row width `n`
  of `nEveryRow` are integers, so NaN, fractions and non-numeric props are
  not modelled. A fractional `n` makes the padding loop at index.js:45-47 run
  forever, because `temp.length` never equals `n`.
- `Rows.Lift`: the elements given to `nEveryRow` are non-null photo edges.
  A `null` element could not be told apart from padding. "Nulls only in the
  last row" and "dropping the nulls gives the input back" would then fail. `callback` is
  assumed to be a function; a host passing something else makes it throw.
- `Rows.NEveryRow` excludes `n <= 0` on a non-empty list, where the source's
  padding loop never ends.
- An options key that the code deletes and a key holding `undefined` are
  both `None` in `Fetching.Params`.

=== FILE: fetching.dfy ===
/**
 Fetch gating and request building: `fetch`, `onEndReached` and the parameter
 object `doFetch` hands to the photo library, in index.js.
 */
module Fetching {
  import opened Js
  import opened Picker
  import opened Paging
  import opened Selection

  /** How many photos one request asks for (`first`). */
  const PageLimit := 1000

  /** The options given to `getPhotos`. A key the code deletes, or one whose
      prop is undefined, is `None`. */
  datatype Params = Params(
    first: int,
    groupTypes: Option<string>,
    groupName: Option<string>,
    assetType: string,
    after: Option<string>)

  /**
   The request `doFetch` builds: `groupTypes` is deleted on Android, a falsy
   `groupName` is deleted, and `after` is set only from a truthy cursor.
   */
  function RequestParams(p: Props, os: Platform, lastCursor: Option<string>): (q: Params)
    ensures q.first == PageLimit && q.assetType == p.assetType
    ensures q.after.Some? <==> Truthy(lastCursor)
    ensures q.after.Some? ==> q.after == lastCursor
    ensures q.groupName.Some? <==> Truthy(AsOption(p.groupName))
    ensures q.groupName.Some? ==> q.groupName == AsOption(p.groupName)
    ensures os == Android ==> q.groupTypes == None
    ensures os != Android ==> q.groupTypes == p.groupTypes
  {
    Params(PageLimit,
           if os == Android then None else p.groupTypes,
           if Truthy(AsOption(p.groupName)) then AsOption(p.groupName) else None,
           p.assetType,
           if Truthy(lastCursor) then lastCursor else None)
  }

  /** The state after a handler, and the request it sent, if any. */
  datatype Fetched = Fetched(state: State, request: Option<Params>)

  /**
   `fetch(updated)`: unless a request is already in flight, or when it is a
   reset, marks one in flight and sends it, built from the current cursor.
   */
  function Fetch(s: State, p: Props, os: Platform, updated: bool): (r: Fetched)
    ensures r.request.Some? <==> !s.loadingMore || updated
    ensures r.request.Some? ==>
      r.state == s.(loadingMore := true) && r.request.value == RequestParams(p, os, s.lastCursor)
    ensures r.request.None? ==> r.state == s
  {
    if !s.loadingMore || updated then
      Fetched(s.(loadingMore := true), Some(RequestParams(p, os, s.lastCursor)))
    else Fetched(s, None)
  }

  /** `onEndReached()`: a non-reset fetch, unless the last page said there are
      no more photos. */
  function OnEndReached(s: State, p: Props, os: Platform): (r: Fetched)
    ensures s.noMore ==> r == Fetched(s, None)
    ensures !s.noMore ==> r == Fetch(s, p, os, false)
  {
    if !s.noMore then Fetch(s, p, os, false) else Fetched(s, None)
  }

  /** `componentDidUpdate(prevProps)`: a `groupName` that is not strictly
      equal to the previous one (`null` after `undefined` included) starts a reset
      fetch; any other prop change sends nothing. */
  function DidUpdate(s: State, prev: Props, p: Props, os: Platform): (r: Fetched)
    ensures prev.groupName != p.groupName ==>
      r.request == Some(RequestParams(p, os, s.lastCursor)) && r.state == s.(loadingMore := true)
    ensures prev.groupName == p.groupName ==> r == Fetched(s, None)
  {
    if prev.groupName != p.groupName then Fetch(s, p, os, true) else Fetched(s, None)
  }

  /** `null` and `undefined` are not strictly equal: a host that goes from
      leaving out `groupName` to passing `null` gets a reset request. */
  lemma NullAfterUndefinedResets(s: State, prev: Props, os: Platform)
    requires prev.groupName == Undefined
    ensures DidUpdate(s, prev, prev.(groupName := Null), os).request ==
      Some(RequestParams(prev, os, s.lastCursor))
  {
  }

  /**
   Switching album and getting its first page back shows only that page's
   photos and clears the selected indices, whatever was loaded or selected
   before.
   */
  lemma AlbumSwitchResets(s: State, prev: Props, p: Props, os: Platform, page: Page)
    requires prev.groupName != p.groupName
    ensures var sent := DidUpdate(s, prev, p, os).state;
      Complete(sent, p, page, true) == Applied(AppendImages(sent, page, true), false) &&
      Complete(sent, p, page, true).state.images == page.edges &&
      Complete(sent, p, page, true).state.selected == []
  {
  }

  /** While one request is in flight a second non-reset fetch sends nothing,
      but a reset fetch always goes out. */
  lemma OverlapSuppressed(s: State, p: Props, os: Platform, updated: bool)
    requires Fetch(s, p, os, updated).request.Some?
    ensures Fetch(Fetch(s, p, os, updated).state, p, os, false) == Fetched(Fetch(s, p, os, updated).state, None)
    ensures Fetch(Fetch(s, p, os, updated).state, p, os, true).request.Some?
  {
  }

  /** Once a page reports no next page, scrolling to the end changes nothing
      and sends nothing, until a reset. */
  lemma ExhaustedStopsScrolling(s: State, p: Props, page: Page, updated: bool, os: Platform)
    requires !page.hasNextPage
    ensures OnEndReached(AppendImages(s, page, updated), p, os) ==
      Fetched(AppendImages(s, page, updated), None)
    ensures Fetch(AppendImages(s, page, updated), p, os, true).request.Some?
  {
  }

  /**
   After a page with photos and a next page, scrolling to the end asks for the
   page after that page's end cursor (when it is truthy); after an empty page
   the request resumes from the same cursor as before.
   */
  lemma ResumesFromCursor(s: State, p: Props, page: Page, updated: bool, os: Platform)
    requires page.hasNextPage
    ensures OnEndReached(AppendImages(s, page, updated), p, os).request.Some?
    ensures page.edges != [] && Truthy(page.endCursor) ==>
      OnEndReached(AppendImages(s, page, updated), p, os).request.value.after == page.endCursor
    ensures page.edges == [] ==>
      OnEndReached(AppendImages(s, page, updated), p, os).request.value.after ==
        RequestParams(p, os, s.lastCursor).after
  {
  }

  /**
   A reset request is built from the same cursor as any other: when a cursor
   is held, the reset asks for the photos after it rather than from the start.
   */
  lemma ResetReusesCursor(s: State, p: Props, os: Platform)
    requires Truthy(s.lastCursor)
    ensures Fetch(s, p, os, true).request.Some?
    ensures Fetch(s, p, os, true).request.value.after == s.lastCursor
  {
  }

  /**
   A rejected `getPhotos` is only logged, leaving the state as `fetch` left it:
   `loadingMore` stays set, so every later non-reset fetch, scrolling included,
   sends nothing; only a reset gets a request out.
   */
  lemma FailedFetchBlocksScrolling(s: State, p: Props, os: Platform)
    requires Fetch(s, p, os, false).request.Some?
    ensures var failed := Fetch(s, p, os, false).state;
      OnEndReached(failed, p, os).request.None? &&
      Fetch(failed, p, os, false).request.None? &&
      Fetch(failed, p, os, true).request.Some?
  {
  }

  /** The mount-time fetch of a freshly built picker goes out, from the start
      of the library. */
  lemma FirstRequestFromStart(p: Props, os: Platform)
    ensures Fetch(Initial(p), p, os, false).request.Some?
    ensures Fetch(Initial(p), p, os, false).request.value.after == None
    ensures Fetch(Initial(p), p, os, false).state.loadingMore
  {
  }

  /**
   The first page of a fresh picker: with a `requestAlbums` prop the albums
   are requested and the page shown; without one the handler throws, the
   picker keeps its loading state, and scrolling does not fetch until an
   album switch (`AlbumSwitchRecovers`).
   */
  lemma FirstPage(p: Props, os: Platform, page: Page)
    ensures var sent := Fetch(Initial(p), p, os, false).state;
      var done := Complete(sent, p, page, false);
      && (p.hasRequestAlbums ==>
            done.Applied? && done.albumsRequested && done.state.images == page.edges &&
            !done.state.initialLoading && !done.state.loadingMore)
      && (!p.hasRequestAlbums ==>
            done.Threw? && done.state.initialLoading && done.state.loadingMore &&
            OnEndReached(done.state, p, os).request.None?)
  {
  }

  /**
   A picker stuck after the throw comes back with an album switch: the reset
   request passes the guard, its completion skips `requestAlbums`, and the page
   it brings clears both loading flags, so scrolling fetches again while the
   page says there is more.
   */
  lemma AlbumSwitchRecovers(p: Props, os: Platform, first: Page, album: StringProp, page: Page)
    requires !p.hasRequestAlbums
    requires album != p.groupName
    ensures var stuck := Complete(Fetch(Initial(p), p, os, false).state, p, first, false).state;
      var p' := p.(groupName := album);
      var switched := DidUpdate(stuck, p, p', os);
      var done := Complete(switched.state, p', page, true);
      && switched.request.Some?
      && done.Applied? && !done.albumsRequested
      && !done.state.initialLoading && !done.state.loadingMore
      && done.state.images == page.edges
      && (page.hasNextPage ==> OnEndReached(done.state, p', os).request.Some?)
  {
  }

  /** Albums are requested on every non-reset completion while the photo list
      is still empty, not only on the first one. */
  lemma AlbumsWhileEmpty(s: State, p: Props, empty: Page, next: Page)
    requires s.images == [] && p.hasRequestAlbums
    requires empty.edges == []
    ensures Complete(s, p, empty, false).albumsRequested
    ensures Complete(Complete(s, p, empty, false).state, p, next, false).albumsRequested
  {
  }

  /**
   A reset takes back the host's `selected` array, which in multi mode is the
   very array the taps since the last reset pushed into and spliced: the
   selected images survive the reset while the selected indices are cleared.
   */
  lemma ResetKeepsTappedImages(s: State, p: Props, taps: seq<Tap>, page: Page)
    requires !p.selectSingleItem
    requires s.sharesSelectedProp && PropInSync(s)
    ensures var t := TapAll(s, p, taps);
      AppendImages(t, page, true).selected == [] &&
      AppendImages(t, page, true).selectedImages == t.selectedImages
  {
    TapsShareHostArray(s, p, taps);
  }

  /**
   The album switch of a host that supplies `requestAlbums` and leaves
   `selected` at its default: after the first page, a tap on photo 0 and a
   switch of album, the new album's first page arrives with no index selected
   but photo 0's image still among the selected images.
   */
  lemma AlbumSwitchKeepsTappedImage(os: Platform, first: Page, second: Page, album: string)
    requires |first.edges| == 1
    ensures var p := DefaultProps().(hasRequestAlbums := true);
      var a := first.edges[0].image;
      var loaded := Complete(Fetch(Initial(p), p, os, false).state, p, first, false).state;
      var tapped := After(loaded, p, a, 0);
      var p' := p.(groupName := Str(album));
      var done := Complete(DidUpdate(tapped, p, p', os).state, p', second, true);
      && p.selected == []
      && tapped.selected == [0] && tapped.selectedImages == [a]
      && done.Applied? && done.state.selected == [] && done.state.selectedImages == [a]
  {
    var p := DefaultProps().(hasRequestAlbums := true);
    var a := first.edges[0].image;
    var sent := Fetch(Initial(p), p, os, false).state;
    var loaded := Complete(sent, p, first, false).state;
    assert loaded == AppendImages(sent, first, false);
    assert loaded.selected == [] && loaded.selectedImages == [] && PropInSync(loaded);
    var tapped := Mutated(loaded.(selected := [0]), [a]);
    ScenarioAppend(loaded, p, a, 0, tapped);
    assert tapped.sharesSelectedProp && tapped.selectedProp == [a];
    var p' := p.(groupName := Str(album));
    var switched := DidUpdate(tapped, p, p', os).state;
    assert switched.images != [] && switched.selectedProp == [a];
  }

  /**
   An image the host passes in `selected` is not a selected index, so the
   first tap on its photo counts as fresh and pushes a second copy.
   */
  lemma InitialSelectionDuplicated(os: Platform, first: Page)
    requires |first.edges| == 1
    ensures var a := first.edges[0].image;
      var p := DefaultProps().(hasRequestAlbums := true, selected := [a]);
      var loaded := Complete(Fetch(Initial(p), p, os, false).state, p, first, false).state;
      && loaded.selected == [] && loaded.selectedImages == [a]
      && After(loaded, p, a, 0).selected == [0]
      && After(loaded, p, a, 0).selectedImages == [a, a]
  {
    var a := first.edges[0].image;
    var p := DefaultProps().(hasRequestAlbums := true, selected := [a]);
    var sent := Fetch(Initial(p), p, os, false).state;
    var loaded := Complete(sent, p, first, false).state;
    assert loaded == AppendImages(sent, first, false);
    ScenarioAppend(loaded, p, a, 0, Mutated(loaded.(selected := [0]), [a, a]));
  }
}

=== FILE: js.dfy ===
/**
 The few JavaScript built-ins the picker's bookkeeping relies on, written out
 with their ECMAScript semantics: `null`/`undefined` as `None`, truthiness of an
 optional string, `Array.prototype.indexOf` and a one-element
 `Array.prototype.splice`.
 */
module Js {

  /** A value that may be `null` or `undefined` (both are `None`). */
  datatype Option<+T> = None | Some(value: T)

  /** JavaScript truthiness of a value that is a string, `null` or `undefined`:
      the empty string is falsy as well. */
  predicate Truthy(s: Option<string>) {
    s.Some? && s.value != ""
  }

  /** A string prop that strict equality (`===`) tells apart from `null` and
      from `undefined`, and those two from each other. */
  datatype StringProp = Undefined | Null | Str(value: string)

  /** The prop as an optional string, where `null` and `undefined` alike are
      `None`: what truthiness and option objects see of it. */
  function AsOption(v: StringProp): (r: Option<string>)
    ensures r.Some? <==> v.Str?
    ensures v.Str? ==> r.value == v.value
  {
    if v.Str? then Some(v.value) else None
  }

  /** `xs.indexOf(x)`: the position of the first element strictly equal to `x`,
      or -1 when there is none. */
  function IndexOf<T(==)>(xs: seq<T>, x: T): (k: int)
    ensures -1 <= k < |xs|
    ensures k == -1 <==> x !in xs
    ensures 0 <= k ==> xs[k] == x && x !in xs[..k]
  {
    if xs == [] then -1
    else if xs[0] == x then 0
    else
      var k := IndexOf(xs[1..], x);
      assert xs[1..][..if k < 0 then 0 else k] == xs[1..if k < 0 then 1 else k + 1];
      if k < 0 then -1 else k + 1
  }

  /** `indexOf` finds a value at the first position holding it. */
  lemma IndexOfFirst<T>(xs: seq<T>, x: T, k: int)
    requires 0 <= k < |xs| && xs[k] == x
    requires forall j :: 0 <= j < k ==> xs[j] != x
    ensures IndexOf(xs, x) == k
  {
    forall m | k < m <= |xs| ensures x in xs[..m] {
      assert xs[..m][k] == x;
    }
  }

  /** The position `xs.splice(start, 1)` deletes at: a negative `start` counts
      from the end and is clamped at 0, a large one is clamped at the length. */
  function SpliceStart<T>(xs: seq<T>, start: int): (a: nat)
    ensures a <= |xs|
    ensures 0 <= start <= |xs| ==> a == start
    ensures -|xs| <= start < 0 ==> a == |xs| + start
  {
    if start < 0 then
      if |xs| + start < 0 then 0 else |xs| + start
    else if start > |xs| then |xs| else start
  }

  /** The array left behind by `xs.splice(start, 1)`. */
  function Splice1<T>(xs: seq<T>, start: int): (r: seq<T>)
    ensures start == -1 && xs != [] ==> r == xs[..|xs| - 1]
    ensures |xs| <= start ==> r == xs
    ensures xs == [] ==> r == []
    ensures |r| == if SpliceStart(xs, start) < |xs| then |xs| - 1 else |xs|
    ensures multiset(r) <= multiset(xs)
  {
    var a := SpliceStart(xs, start);
    if a < |xs| then
      assert xs == xs[..a] + [xs[a]] + xs[a + 1..];
      xs[..a] + xs[a + 1..]
    else xs
  }

  /** Removing at an index inside the list takes out exactly that element. */
  lemma SpliceAt<T>(xs: seq<T>, k: int)
    requires 0 <= k < |xs|
    ensures Splice1(xs, k) == xs[..k] + xs[k + 1..]
    ensures multiset(Splice1(xs, k)) == multiset(xs) - multiset{xs[k]}
  {
    SpliceInside(xs, k);
    assert xs == xs[..k] + [xs[k]] + xs[k + 1..];
  }

  lemma SpliceInside<T>(xs: seq<T>, k: int)
    requires 0 <= k < |xs|
    ensures Splice1(xs, k) == xs[..k] + xs[k + 1..]
  {
    assert SpliceStart(xs, k) == k;
  }

  /** A value appended to a list that lacked it is found last, and removing it
      gives the list back. */
  lemma AppendedFoundLast<T>(xs: seq<T>, x: T)
    requires x !in xs
    ensures IndexOf(xs + [x], x) == |xs|
    ensures Splice1(xs + [x], |xs|) == xs
  {
    assert (xs + [x])[..|xs|] == xs;
  }

  /** `xs` with every element equal to `x` filtered out: an order-preserving
      reference for removing a value from a duplicate-free list. */
  function Without<T(==)>(xs: seq<T>, x: T): (r: seq<T>)
    ensures x !in r
    ensures forall i :: 0 <= i < |r| ==> r[i] in xs
    ensures forall i :: 0 <= i < |xs| && xs[i] != x ==> xs[i] in r
  {
    if xs == [] then []
    else if xs[0] == x then Without(xs[1..], x)
    else [xs[0]] + Without(xs[1..], x)
  }

  /** No value occurs twice. */
  predicate NoDup<T(==)>(xs: seq<T>) {
    forall i, j :: 0 <= i < j < |xs| ==> xs[i] != xs[j]
  }

  /** Deleting the first occurrence of a value from a duplicate-free list is the
      same as filtering every occurrence out: the remaining order is kept, and
      exactly one element goes. */
  lemma {:induction false} SpliceFirstIsWithout<T>(xs: seq<T>, x: T)
    requires NoDup(xs)
    requires x in xs
    ensures Splice1(xs, IndexOf(xs, x)) == Without(xs, x)
    ensures |Without(xs, x)| == |xs| - 1
  {
    NoDupTail(xs);
    if xs[0] == x {
      WithoutAbsent(xs[1..], x);
      SpliceInside(xs, 0);
    } else {
      var k := IndexOf(xs[1..], x);
      assert IndexOf(xs, x) == k + 1;
      SpliceFirstIsWithout(xs[1..], x);
      SpliceCons(xs, k);
    }
  }

  /** Removing at position `k + 1` of a list is removing at `k` of its tail. */
  lemma SpliceCons<T>(xs: seq<T>, k: nat)
    requires k + 1 < |xs|
    ensures Splice1(xs, k + 1) == [xs[0]] + Splice1(xs[1..], k)
  {
    SpliceInside(xs, k + 1);
    SpliceInside(xs[1..], k);
    assert xs[..k + 1] == [xs[0]] + xs[1..][..k];
    assert xs[k + 2..] == xs[1..][k + 1..];
  }

  /** The tail of a duplicate-free list is duplicate-free and lacks the head. */
  lemma NoDupTail<T>(xs: seq<T>)
    requires NoDup(xs)
    requires xs != []
    ensures NoDup(xs[1..])
    ensures xs[0] !in xs[1..]
  {
    forall j | 0 <= j < |xs[1..]| ensures xs[1..][j] != xs[0] {
      assert xs[1..][j] == xs[j + 1];
    }
  }

  /** Filtering keeps a list duplicate-free. */
  lemma {:induction false} WithoutNoDup<T>(xs: seq<T>, x: T)
    requires NoDup(xs)
    ensures NoDup(Without(xs, x))
  {
    if xs != [] {
      NoDupTail(xs);
      WithoutNoDup(xs[1..], x);
      if xs[0] != x {
        var w := Without(xs[1..], x);
        assert xs[0] !in w;
        forall i, j | 0 <= i < j < |[xs[0]] + w| ensures ([xs[0]] + w)[i] != ([xs[0]] + w)[j] {
          assert ([xs[0]] + w)[j] == w[j - 1];
          if i > 0 {
            assert ([xs[0]] + w)[i] == w[i - 1];
          }
        }
      }
    }
  }

  /** Filtering out a value that does not occur changes nothing. */
  lemma {:induction false} WithoutAbsent<T>(xs: seq<T>, x: T)
    requires x !in xs
    ensures Without(xs, x) == xs
  {
    if xs != [] {
      assert x !in xs[1..] by {
        forall j | 0 <= j < |xs[1..]| ensures xs[1..][j] != x {
          assert xs[1..][j] == xs[j + 1];
        }
      }
      WithoutAbsent(xs[1..], x);
      assert xs == [xs[0]] + xs[1..];
    }
  }
}

=== FILE: paging.dfy ===
/**
 Page accumulation: `appendImages` in index.js, and the completion handler of
 `doFetch` that calls it once the photo library answers.
 */
module Paging {
  import opened Js
  import opened Picker

  /**
   `appendImages(data, updated)`: merges a page into the state. A reset
   (`updated`) replaces the photos, clears the selected indices and takes the
   host's `selected` array back as the selected images, with whatever earlier
   taps pushed into it or spliced out of it; otherwise the page is appended.
   The cursor moves only on a non-empty page, and `noMore` mirrors the page's
   `has_next_page`.
   */
  function AppendImages(s: State, page: Page, updated: bool): (r: State)
    ensures !r.loadingMore && !r.initialLoading
    ensures r.noMore <==> !page.hasNextPage
    ensures updated ==> r.images == page.edges && r.selected == []
    ensures updated ==> r.selectedImages == s.selectedProp && r.sharesSelectedProp
    ensures !updated ==>
      |r.images| == |s.images| + |page.edges| &&
      r.images[..|s.images|] == s.images && r.images[|s.images|..] == page.edges
    ensures !updated ==>
      r.selected == s.selected && r.selectedImages == s.selectedImages &&
      r.sharesSelectedProp == s.sharesSelectedProp
    ensures r.selectedProp == s.selectedProp
    ensures PropInSync(r) <==> updated || PropInSync(s)
    ensures page.edges != [] ==> r.lastCursor == page.endCursor
    ensures page.edges == [] ==> r.lastCursor == s.lastCursor
  {
    var images := if updated then page.edges else s.images + page.edges;
    State(images,
          if updated then s.selectedProp else s.selectedImages,
          if updated then [] else s.selected,
          if |page.edges| > 0 then page.endCursor else s.lastCursor,
          false, false, !page.hasNextPage,
          s.selectedProp,
          updated || s.sharesSelectedProp)
  }

  /** Appending a page keeps the pairing: every selected index still names
      the same photo. */
  lemma AppendKeepsPaired(s: State, page: Page)
    requires Paired(s)
    ensures Paired(AppendImages(s, page, false))
  {
    var r := AppendImages(s, page, false);
    forall k | 0 <= k < |r.selected|
      ensures 0 <= r.selected[k] < |r.images| && r.selectedImages[k] == r.images[r.selected[k]].image
    {
      assert r.images[s.selected[k]] == r.images[..|s.images|][s.selected[k]];
    }
  }

  /**
   What a successful `getPhotos` leads to. Before appending, the handler calls
   `requestAlbums()` when the photo list is still empty and this is not a
   reset; `requestAlbums` has no default, so without one that call throws and
   the page is never appended.
   */
  datatype Completion = Applied(state: State, albumsRequested: bool) | Threw(state: State)

  function Complete(s: State, p: Props, page: Page, updated: bool): (r: Completion)
    ensures r.Threw? <==> s.images == [] && !updated && !p.hasRequestAlbums
    ensures r.Threw? ==> r.state == s
    ensures r.Applied? ==>
      (r.albumsRequested <==> s.images == [] && !updated) &&
      r.state == AppendImages(s, page, updated)
  {
    var albums := s.images == [] && !updated;
    if albums && !p.hasRequestAlbums then Threw(s)
    else Applied(AppendImages(s, page, updated), albums)
  }

  /** All photos of a run of pages, in order. */
  function AllEdges(pages: seq<Page>): seq<Asset> {
    if pages == [] then [] else pages[0].edges + AllEdges(pages[1..])
  }

  /** Page `i` is the last page of the run that carried photos. */
  predicate LastNonEmpty(pages: seq<Page>, i: int) {
    0 <= i < |pages| && pages[i].edges != [] &&
    forall j :: i < j < |pages| ==> pages[j].edges == []
  }

  /** The state after appending a run of pages without a reset. */
  function Accumulate(s: State, pages: seq<Page>): State
    decreases |pages|
  {
    if pages == [] then s else Accumulate(AppendImages(s, pages[0], false), pages[1..])
  }

  /**
   Appending pages keeps the earlier photos as a prefix and adds every page's
   photos in fetch order; the selection is untouched; `noMore` reflects the
   last page.
   */
  lemma {:induction false} AccumulateAppends(s: State, pages: seq<Page>)
    ensures Accumulate(s, pages).images == s.images + AllEdges(pages)
    ensures Accumulate(s, pages).selected == s.selected
    ensures Accumulate(s, pages).selectedImages == s.selectedImages
    ensures Accumulate(s, pages).selectedProp == s.selectedProp
    ensures Accumulate(s, pages).sharesSelectedProp == s.sharesSelectedProp
    ensures pages != [] ==> (Accumulate(s, pages).noMore <==> !pages[|pages| - 1].hasNextPage)
    decreases |pages|
  {
    if pages != [] {
      var t := AppendImages(s, pages[0], false);
      AccumulateAppends(t, pages[1..]);
      assert t.images == s.images + pages[0].edges by {
        assert t.images == t.images[..|s.images|] + t.images[|s.images|..];
      }
      if pages[1..] == [] {
        assert pages == [pages[0]];
      } else {
        assert pages[1..][|pages[1..]| - 1] == pages[|pages| - 1];
      }
    }
  }

  /**
   After a run of pages the cursor is the end cursor of the last page that
   carried photos, or the old cursor when every page was empty.
   */
  lemma {:induction false} AccumulateCursor(s: State, pages: seq<Page>)
    ensures (forall i :: 0 <= i < |pages| ==> pages[i].edges == []) ==>
      Accumulate(s, pages).lastCursor == s.lastCursor
    ensures forall i :: LastNonEmpty(pages, i) ==> Accumulate(s, pages).lastCursor == pages[i].endCursor
    decreases |pages|
  {
    if pages != [] {
      var t := AppendImages(s, pages[0], false);
      var rest := pages[1..];
      AccumulateCursor(t, rest);
      assert forall j :: 0 <= j < |rest| ==> rest[j] == pages[j + 1];
      forall i | LastNonEmpty(pages, i)
        ensures Accumulate(s, pages).lastCursor == pages[i].endCursor
      {
        if i > 0 {
          assert LastNonEmpty(rest, i - 1);
        }
      }
    }
  }

  /**
   A reset followed by further pages holds exactly the photos fetched since
   the reset, with no index selected and the host's array, as it stood at the
   reset, as the selected images.
   */
  lemma ResetThenAppend(s: State, first: Page, rest: seq<Page>)
    ensures Accumulate(AppendImages(s, first, true), rest).images == first.edges + AllEdges(rest)
    ensures Accumulate(AppendImages(s, first, true), rest).selected == []
    ensures Accumulate(AppendImages(s, first, true), rest).selectedImages == s.selectedProp
  {
    AccumulateAppends(AppendImages(s, first, true), rest);
  }
}

=== FILE: picker.dfy ===
/**
 The picker component's data: the photo-library records it consumes, the props
 a host configures it with, and the component state its handlers update.
 */
module Picker {
  import opened Js

  /** `node.image` of a photo-library edge; only the URI is looked at. */
  datatype Image = Image(uri: string)

  /** One photo-library edge (`{ node: { image } }`). */
  datatype Asset = Asset(image: Image)

  /** A page of photos: the edges, `page_info.has_next_page` and
      `page_info.end_cursor` (which may be null). */
  datatype Page = Page(edges: seq<Asset>, hasNextPage: bool, endCursor: Option<string>)

  /** The host platform, as far as the bookkeeping distinguishes it. */
  datatype Platform = Ios | Android | OtherPlatform

  /**
   The props the bookkeeping reads. `hasCallbackMaximum` and `hasRequestAlbums`
   say whether the host supplied (truthy) functions; `selected` is the host's
   initial list of selected images; an absent `groupTypes` is `None`, while
   `groupName` keeps `undefined` and `null` apart.
   */
  datatype Props = Props(
    maximum: int,
    selectSingleItem: bool,
    hasCallbackMaximum: bool,
    hasRequestAlbums: bool,
    selected: seq<Image>,
    groupTypes: Option<string>,
    groupName: StringProp,
    assetType: string)

  /** The component's default props. `requestAlbums` has no default. */
  function DefaultProps(): (p: Props)
    ensures p.maximum == 15 && !p.selectSingleItem
    ensures p.hasCallbackMaximum && !p.hasRequestAlbums
    ensures p.selected == []
    ensures p.groupTypes == Some("SavedPhotos") && p.groupName == Undefined
    ensures p.assetType == "Photos"
  {
    Props(15, false, true, false, [], Some("SavedPhotos"), Undefined, "Photos")
  }

  /**
   The component state: the accumulated photos, the selected images and the
   parallel list of selected indices, the paging cursor and the three flags.

   The constructor does not copy the `selected` prop: `selectedImages` starts
   out as the host's very array, and taps push into it and splice it in place.
   `selectedProp` is what that array holds now, and `sharesSelectedProp` says
   whether `selectedImages` is still that array.
   */
  datatype State = State(
    images: seq<Asset>,
    selectedImages: seq<Image>,
    selected: seq<int>,
    lastCursor: Option<string>,
    initialLoading: bool,
    loadingMore: bool,
    noMore: bool,
    selectedProp: seq<Image>,
    sharesSelectedProp: bool)

  /** While `selectedImages` is the host's array, both hold the same images. */
  predicate PropInSync(s: State) {
    s.sharesSelectedProp ==> s.selectedProp == s.selectedImages
  }

  /**
   The two selection lists pair up: position `k` of `selectedImages` holds the
   image of the photo whose grid index is at position `k` of `selected`.
   */
  predicate Paired(s: State) {
    && |s.selected| == |s.selectedImages|
    && forall k :: 0 <= k < |s.selected| ==>
         0 <= s.selected[k] < |s.images| && s.selectedImages[k] == s.images[s.selected[k]].image
  }

  /** No two photos share a URI. */
  predicate DistinctUris(images: seq<Asset>) {
    forall i, j :: 0 <= i < j < |images| ==> images[i].image.uri != images[j].image.uri
  }

  /** Photos at different indices have different URIs. */
  lemma DistinctAt(images: seq<Asset>, i: int, j: int)
    requires DistinctUris(images)
    requires 0 <= i < |images| && 0 <= j < |images| && i != j
    ensures images[i].image.uri != images[j].image.uri
  {
    if j < i {
      assert images[j].image.uri != images[i].image.uri;
    }
  }

  /** A picker built without preselected images starts paired. */
  lemma InitialPaired(p: Props)
    requires p.selected == []
    ensures Paired(Initial(p))
  {
  }

  /** The state the constructor builds: nothing loaded, loading, and the
      host's array as the selected images. */
  function Initial(p: Props): (s: State)
    ensures s.images == [] && s.selected == [] && s.lastCursor == None
    ensures s.initialLoading && !s.loadingMore && !s.noMore
    ensures s.selectedImages == p.selected && s.sharesSelectedProp && PropInSync(s)
  {
    State([], p.selected, [], None, true, false, false, p.selected, true)
  }

  /** An in-place change of `selectedImages`; the host's array sees it as
      long as the two are the same array. */
  function Mutated(s: State, selectedImages: seq<Image>): (r: State)
    ensures r.selectedImages == selectedImages
    ensures r.sharesSelectedProp == s.sharesSelectedProp
    ensures PropInSync(s) ==> PropInSync(r)
    ensures !s.sharesSelectedProp ==> r.selectedProp == s.selectedProp
    ensures r.(selectedImages := s.selectedImages, selectedProp := s.selectedProp) == s
  {
    s.(selectedImages := selectedImages,
       selectedProp := if s.sharesSelectedProp then selectedImages else s.selectedProp)
  }
}

=== FILE: rows.dfy ===
/**
 Row chunking (`nEveryRow` in index.js): a flat list is cut into rows of
 exactly `n` cells, the last row padded with `null`. The component's only
 calls of it are commented out; the grid it renders is a `FlatList` that lays
 out the flat photo list in columns itself.
 */
module Rows {
  import opened Js

  /** Every element as a non-null cell. */
  function Lift<T>(xs: seq<T>): (r: seq<Option<T>>)
    ensures |r| == |xs|
    ensures forall i :: 0 <= i < |xs| ==> r[i] == Some(xs[i])
  {
    seq(|xs|, i requires 0 <= i < |xs| => Some(xs[i]))
  }

  /** `k` padding cells. */
  function Nulls<T>(k: nat): (r: seq<Option<T>>)
    ensures |r| == k
    ensures forall i :: 0 <= i < k ==> r[i] == None
  {
    seq(k, i => None)
  }

  /** The rows laid end to end. */
  function Flatten<T>(rows: seq<seq<T>>): seq<T> {
    if rows == [] then [] else rows[0] + Flatten(rows[1..])
  }

  /** The non-null cells, in order: the grid with its padding dropped. */
  function Present<T>(cells: seq<Option<T>>): seq<T> {
    if cells == [] then []
    else if cells[0].Some? then [cells[0].value] + Present(cells[1..])
    else Present(cells[1..])
  }

  /** Dropping the padding of a lifted list gives the list back. */
  lemma {:induction false} PresentLiftNulls<T>(xs: seq<T>, k: nat)
    ensures Present(Lift(xs) + Nulls(k)) == xs
  {
    if xs == [] {
      assert Lift(xs) + Nulls(k) == Nulls(k);
      PresentNulls<T>(k);
    } else {
      assert (Lift(xs) + Nulls(k))[1..] == Lift(xs[1..]) + Nulls(k);
      PresentLiftNulls(xs[1..], k);
    }
  }

  lemma {:induction false} PresentNulls<T>(k: nat)
    ensures Present(Nulls<T>(k)) == []
  {
    if k > 0 {
      assert Nulls<T>(k)[1..] == Nulls<T>(k - 1);
      PresentNulls<T>(k - 1);
    }
  }

  lemma FlattenAppend<T>(rows: seq<seq<T>>, row: seq<T>)
    ensures Flatten(rows + [row]) == Flatten(rows) + row
  {
    if rows != [] {
      assert (rows + [row])[1..] == rows[1..] + [row];
    }
  }

  /** In a list of `|rows| * n + t` cells with `1 <= t <= n`, the cell index
      is a multiple of `n` exactly when the last row is full. */
  lemma FullRowMod(q: nat, t: nat, n: nat)
    requires n > 0
    requires 1 <= t <= n
    ensures (q * n + t) % n == 0 <==> t == n
    ensures (q * n + t + n - 1) / n == q + 1
  {
    if t == n {
      DivModUnique(q * n + t, n, q + 1, 0);
    } else {
      DivModUnique(q * n + t, n, q, t);
    }
    DivModUnique(q * n + t + n - 1, n, q + 1, t - 1);
  }

  /** Euclidean division has exactly one quotient and remainder. */
  lemma DivModUnique(a: int, n: int, q: int, r: int)
    requires n > 0
    requires 0 <= r < n
    requires a == q * n + r
    ensures a / n == q && a % n == r
  {
    var q', r' := a / n, a % n;
    assert a == q' * n + r';
    MulSub(q, q', n);
    if q > q' {
      MulAtLeast(q - q', n);
    } else if q < q' {
      MulSub(q', q, n);
      MulAtLeast(q' - q, n);
    }
  }

  lemma MulSub(x: int, y: int, n: int)
    ensures x * n - y * n == (x - y) * n
  {}

  lemma {:induction false} MulAtLeast(k: int, n: int)
    requires k >= 1 && n > 0
    ensures k * n >= n
    decreases k
  {
    if k > 1 {
      MulAtLeast(k - 1, n);
      MulSub(k, k - 1, n);
    }
  }

  lemma MulSucc(q: int, n: int)
    ensures (q + 1) * n == q * n + n
  {}

  /** Closing a row keeps the cell count `|result| * n + |temp|`. */
  lemma CloseRow<T>(result: seq<seq<T>>, temp: seq<T>, n: int)
    requires |temp| == n
    ensures |result + [temp]| * n == |result| * n + |temp|
  {
    MulSucc(|result|, n);
  }

  /** `n - |temp|` nulls appended to the partial last row. */
  method PadRow<T>(temp: seq<Option<T>>, n: int) returns (row: seq<Option<T>>)
    requires |temp| <= n
    ensures row == temp + Nulls(n - |temp|)
  {
    row := temp;
    while |row| != n
      invariant |temp| <= |row| <= n
      invariant row == temp + Nulls(|row| - |temp|)
      decreases n - |row|
    {
      row := row + [None];
    }
  }

  /**
   The state of the `nEveryRow` loop after `i` cells: closed rows of exactly
   `n` non-null cells, an open row of 1 to `n` cells (none before the first
   cell), together the first `i` cells in order.
   */
  ghost predicate Partial<T>(data: seq<T>, n: int, i: int, result: seq<seq<Option<T>>>, temp: seq<Option<T>>) {
    && 0 <= i <= |data|
    && (i > 0 ==> n > 0)
    && (forall row :: row in result ==> |row| == n)
    && (forall k, j :: 0 <= k < |result| && 0 <= j < |result[k]| ==> result[k][j].Some?)
    && Flatten(result) + temp == Lift(data[..i])
    && (i == 0 ==> temp == [] && result == [])
    && (i > 0 ==> 1 <= |temp| <= n)
    && |result| * n + |temp| == i
  }

  /** One pass of the loop body: close the open row when `i` is a non-zero
      multiple of `n`, then add cell `i`. */
  lemma Advance<T>(data: seq<T>, n: int, i: int, result: seq<seq<Option<T>>>, temp: seq<Option<T>>)
    requires Partial(data, n, i, result, temp)
    requires i < |data| && n > 0
    ensures i > 0 && i % n == 0 ==> Partial(data, n, i + 1, result + [temp], [Some(data[i])])
    ensures !(i > 0 && i % n == 0) ==> Partial(data, n, i + 1, result, temp + [Some(data[i])])
  {
    assert Lift(data[..i + 1]) == Lift(data[..i]) + [Some(data[i])];
    if i > 0 {
      FullRowMod(|result|, |temp|, n);
      if i % n == 0 {
        // the open row is full: it becomes a closed row of non-null cells
        FlattenAppend(result, temp);
        CloseRow(result, temp, n);
        assert temp == Lift(data[..i])[|Flatten(result)|..];
        var r: seq<seq<Option<T>>> := result + [temp];
        forall k: int, j: int | 0 <= k < |r| && 0 <= j < |r[k]| ensures r[k][j].Some? {
          if k == |result| {
            assert r[k][j] == Lift(data[..i])[|Flatten(result)| + j];
          } else {
            assert r[k] == result[k];
          }
        }
      }
    }
  }

  /** The loop body for cell `i`. */
  method Step<T>(data: seq<T>, n: int, i: int, result: seq<seq<Option<T>>>, temp: seq<Option<T>>)
    returns (result': seq<seq<Option<T>>>, temp': seq<Option<T>>)
    requires Partial(data, n, i, result, temp)
    requires i < |data| && n > 0
    ensures Partial(data, n, i + 1, result', temp')
  {
    Advance(data, n, i, result, temp);
    result', temp' := result, temp;
    if i > 0 && i % n == 0 {
      result' := result' + [temp'];
      temp' := [];
    }
    temp' := temp' + [Some(data[i])];
  }

  /**
   The loop of `nEveryRow`: walks the list once, closing the current row
   whenever the index reaches a non-zero multiple of `n`. It returns the full
   rows and the still open last row, which holds between 1 and `n` cells
   unless the list is empty.
   */
  method FullRows<T>(data: seq<T>, n: int) returns (result: seq<seq<Option<T>>>, temp: seq<Option<T>>)
    requires n > 0 || |data| == 0
    ensures forall row :: row in result ==> |row| == n
    ensures forall k, j :: 0 <= k < |result| && 0 <= j < |result[k]| ==> result[k][j].Some?
    ensures Flatten(result) + temp == Lift(data)
    ensures data == [] ==> temp == [] && result == []
    ensures data != [] ==> 1 <= |temp| <= n
    ensures |result| * n + |temp| == |data|
  {
    result, temp := [], [];
    var i := 0;
    while i < |data|
      invariant Partial(data, n, i, result, temp)
    {
      result, temp := Step(data, n, i, result, temp);
      i := i + 1;
    }
    PartialDone(data, n, result, temp);
  }

  /** The loop state after the last cell is the whole list. */
  lemma PartialDone<T>(data: seq<T>, n: int, result: seq<seq<Option<T>>>, temp: seq<Option<T>>)
    requires Partial(data, n, |data|, result, temp)
    ensures forall row :: row in result ==> |row| == n
    ensures forall k, j :: 0 <= k < |result| && 0 <= j < |result[k]| ==> result[k][j].Some?
    ensures Flatten(result) + temp == Lift(data)
    ensures data == [] ==> temp == [] && result == []
    ensures data != [] ==> 1 <= |temp| <= n
    ensures |result| * n + |temp| == |data|
  {
    assert data[..|data|] == data;
  }

  /**
   `nEveryRow(data, n)`: the rows of `FullRows`, the open last row padded with
   `null` until it holds `n` cells. With `n <= 0` the source never leaves its
   padding loop on a non-empty list, so such calls are excluded.
   */
  method NEveryRow<T>(data: seq<T>, n: int) returns (rows: seq<seq<Option<T>>>)
    requires n > 0 || |data| == 0
    ensures data == [] ==> rows == []
    ensures forall row :: row in rows ==> |row| == n
    ensures n > 0 ==> |rows| == (|data| + n - 1) / n
    ensures 0 <= |rows| * n - |data| && (n > 0 ==> |rows| * n - |data| < n)
    ensures Flatten(rows) == Lift(data) + Nulls(|rows| * n - |data|)
    ensures forall i, j :: 0 <= i < |rows| - 1 && 0 <= j < |rows[i]| ==> rows[i][j].Some?
    ensures Present(Flatten(rows)) == data
  {
    var result, temp := FullRows(data, n);
    if |temp| > 0 {
      var last := PadRow(temp, n);
      rows := result + [last];
      LastRow(result, temp, last, data, n);
    } else {
      rows := result;
      EmptyGrid(data, n, rows);
    }
  }

  /** No cells, no rows. */
  lemma EmptyGrid<T>(data: seq<T>, n: int, rows: seq<seq<Option<T>>>)
    requires data == [] && rows == []
    ensures n > 0 ==> |rows| == (|data| + n - 1) / n
    ensures |rows| * n - |data| == 0
    ensures Flatten(rows) == Lift(data) + Nulls(0)
    ensures Present(Flatten(rows)) == data
  {
    if n > 0 {
      DivModUnique(n - 1, n, 0, n - 1);
    }
  }

  /** Appending the padded last row completes the grid. */
  lemma LastRow<T>(result: seq<seq<Option<T>>>, temp: seq<Option<T>>, last: seq<Option<T>>, data: seq<T>, n: int)
    requires n > 0 && 1 <= |temp| <= n
    requires forall row :: row in result ==> |row| == n
    requires forall k, j :: 0 <= k < |result| && 0 <= j < |result[k]| ==> result[k][j].Some?
    requires Flatten(result) + temp == Lift(data)
    requires |result| * n + |temp| == |data|
    requires last == temp + Nulls(n - |temp|)
    ensures forall row :: row in result + [last] ==> |row| == n
    ensures |result + [last]| == (|data| + n - 1) / n
    ensures |result + [last]| * n - |data| == n - |temp|
    ensures Flatten(result + [last]) == Lift(data) + Nulls(n - |temp|)
    ensures forall i, j :: 0 <= i < |result + [last]| - 1 && 0 <= j < |(result + [last])[i]| ==>
      (result + [last])[i][j].Some?
    ensures Present(Flatten(result + [last])) == data
  {
    FullRowMod(|result|, |temp|, n);
    FlattenAppend(result, last);
    MulSucc(|result|, n);
    PresentLiftNulls(data, n - |temp|);
    var rows: seq<seq<Option<T>>> := result + [last];
    forall i: int, j: int | 0 <= i < |rows| - 1 && 0 <= j < |rows[i]| ensures rows[i][j].Some? {
      assert rows[i] == result[i];
    }
  }
}

=== FILE: selection.dfy ===
/**
 Selection toggling (`selectImage` in index.js). The component keeps the
 selected grid indices in `selected` and the selected images in
 `selectedImages`; a tap on a photo toggles its index.
 */
module Selection {
  import opened Js
  import opened Picker

  /** A host callback fired by a toggle: `callbackMaximum()` or
      `callback(selected, image)`. */
  datatype Call = MaximumReached | SelectionChanged(selected: seq<int>, image: Image)

  /**
   What a toggle leaves behind. `Crashed` is the TypeError raised when an
   index being deselected has no photo (`images[index]` is undefined): by then
   `selected` has already been spliced in place, and neither `setState` nor a
   callback runs.
   */
  datatype Toggle = Toggled(state: State, calls: seq<Call>) | Crashed(state: State)

  /** The URIs of a list of images. */
  function Uris(xs: seq<Image>): (r: seq<string>)
    ensures |r| == |xs|
    ensures forall i :: 0 <= i < |xs| ==> r[i] == xs[i].uri
  {
    seq(|xs|, i requires 0 <= i < |xs| => xs[i].uri)
  }

  /** A fresh index in multi mode with the maximum already reached. */
  predicate Rejected(s: State, p: Props, index: int) {
    index !in s.selected && !p.selectSingleItem && |s.selected| >= p.maximum
  }

  /** `selectImage(image, index)`. */
  function SelectImage(s: State, p: Props, image: Image, index: int): (r: Toggle)
    // only the two selection lists and the host's array ever change
    ensures r.state.(selected := s.selected, selectedImages := s.selectedImages,
                     selectedProp := s.selectedProp, sharesSelectedProp := s.sharesSelectedProp) == s
    // a deselected index without a photo is the only failure
    ensures r.Crashed? <==> index in s.selected && !(0 <= index < |s.images|)
    // a fresh index in single-item mode replaces the selection with new arrays
    ensures index !in s.selected && p.selectSingleItem ==>
      r.state.selected == [index] && r.state.selectedImages == [image] &&
      !r.state.sharesSelectedProp
    // a fresh index in multi mode is appended below the maximum, else rejected
    ensures index !in s.selected && !p.selectSingleItem && |s.selected| < p.maximum ==>
      r.state.selected == s.selected + [index] &&
      r.state.selectedImages == s.selectedImages + [image]
    ensures Rejected(s, p, index) ==> r.state == s
    // the host calls: `callbackMaximum()` on a rejected index when supplied,
    // then always `callback` with the resulting indices
    ensures r.Toggled? ==> (
      r.calls == (if Rejected(s, p, index) && p.hasCallbackMaximum then [MaximumReached] else []) +
                 [SelectionChanged(r.state.selected, image)])
  {
    if IndexOf(s.selected, index) >= 0 then Deselect(s, image, index) else SelectFresh(s, p, image, index)
  }

  /**
   The first branch of `selectImage`: the tapped index is selected, so its
   first occurrence is spliced out of `selected` in place, and the image with
   the photo's URI out of `selectedImages`.
   */
  function Deselect(s: State, image: Image, index: int): (r: Toggle)
    requires index in s.selected
    ensures r.state.(selected := s.selected, selectedImages := s.selectedImages, selectedProp := s.selectedProp) == s
    ensures r.Crashed? <==> !(0 <= index < |s.images|)
    ensures |r.state.selected| == |s.selected| - 1
    ensures r.Crashed? ==> r.state.selectedImages == s.selectedImages && r.state.selectedProp == s.selectedProp
    ensures r.Toggled? ==> r.calls == [SelectionChanged(r.state.selected, image)]
  {
    var selected := Splice1(s.selected, IndexOf(s.selected, index));
    if 0 <= index < |s.images| then
      var j := IndexOf(Uris(s.selectedImages), s.images[index].image.uri);
      Toggled(Mutated(s.(selected := selected), Splice1(s.selectedImages, j)),
              [SelectionChanged(selected, image)])
    else
      Crashed(s.(selected := selected))
  }

  /**
   The second branch of `selectImage`: a fresh index replaces the selection in
   single-item mode, is pushed below the maximum, and is otherwise refused
   with `callbackMaximum()`.
   */
  function SelectFresh(s: State, p: Props, image: Image, index: int): (r: Toggle)
    requires index !in s.selected
    ensures r.Toggled?
    ensures p.selectSingleItem ==>
      r.state == s.(selected := [index], selectedImages := [image], sharesSelectedProp := false)
    ensures !p.selectSingleItem && |s.selected| < p.maximum ==>
      r.state == Mutated(s.(selected := s.selected + [index]), s.selectedImages + [image])
    ensures Rejected(s, p, index) ==> r.state == s
    ensures r.calls == (if Rejected(s, p, index) && p.hasCallbackMaximum then [MaximumReached] else []) +
                       [SelectionChanged(r.state.selected, image)]
  {
    if p.selectSingleItem then
      Toggled(s.(selected := [index], selectedImages := [image], sharesSelectedProp := false),
              [SelectionChanged([index], image)])
    else if |s.selected| < p.maximum then
      var selected := s.selected + [index];
      Toggled(Mutated(s.(selected := selected), s.selectedImages + [image]),
              [SelectionChanged(selected, image)])
    else
      Toggled(s, (if p.hasCallbackMaximum then [MaximumReached] else []) +
                 [SelectionChanged(s.selected, image)])
  }

  /**
   Apart from a fresh index in single-item mode, which builds new arrays, a
   toggle changes `selectedImages` in place: while that is the host's array,
   the host's array changes with it.
   */
  lemma FollowsHostArray(s: State, p: Props, image: Image, index: int)
    ensures var t := After(s, p, image, index);
      t.sharesSelectedProp <==> s.sharesSelectedProp && !(index !in s.selected && p.selectSingleItem)
    ensures var t := After(s, p, image, index);
      t.sharesSelectedProp && t.selectedImages != s.selectedImages ==> t.selectedProp == t.selectedImages
    ensures var t := After(s, p, image, index);
      !t.sharesSelectedProp ==> t.selectedProp == s.selectedProp
    ensures PropInSync(s) ==> PropInSync(After(s, p, image, index))
  {
  }

  /**
   A deselection drops one occurrence of the index and at most one image; a
   crashed one has already spliced the indices but not the images.
   */
  lemma DeselectRemovesOne(s: State, p: Props, image: Image, index: int)
    requires index in s.selected
    ensures |SelectImage(s, p, image, index).state.selected| == |s.selected| - 1
    ensures multiset(SelectImage(s, p, image, index).state.selected) ==
      multiset(s.selected) - multiset{index}
    ensures SelectImage(s, p, image, index).Toggled? ==>
      |SelectImage(s, p, image, index).state.selectedImages| ==
        if s.selectedImages == [] then 0 else |s.selectedImages| - 1
    ensures multiset(SelectImage(s, p, image, index).state.selectedImages) <= multiset(s.selectedImages)
    ensures SelectImage(s, p, image, index).Crashed? ==>
      SelectImage(s, p, image, index).state.selectedImages == s.selectedImages
  {
    var k := IndexOf(s.selected, index);
    SpliceAt(s.selected, k);
    assert SelectImage(s, p, image, index).state.selected == Splice1(s.selected, k);
  }

  /**
   In the ordinary deselection the tapped photo's URI is among the selected
   images, each URI once: exactly that image goes, and the others keep their
   order.
   */
  lemma DeselectRemovesImage(s: State, p: Props, image: Image, index: int)
    requires index in s.selected
    requires 0 <= index < |s.images|
    requires NoDup(Uris(s.selectedImages))
    requires s.images[index].image.uri in Uris(s.selectedImages)
    ensures Uris(After(s, p, image, index).selectedImages) ==
      Without(Uris(s.selectedImages), s.images[index].image.uri)
  {
    var us, u := Uris(s.selectedImages), s.images[index].image.uri;
    UrisSplice(s.selectedImages, IndexOf(us, u));
    SpliceFirstIsWithout(us, u);
  }

  /**
   With or without repeated URIs, the image a deselection removes is the first
   selected image carrying the photo's URI; the images before and after it
   stay in order.
   */
  lemma DeselectRemovesFirstMatch(s: State, p: Props, image: Image, index: int, k: int)
    requires index in s.selected
    requires 0 <= index < |s.images|
    requires 0 <= k < |s.selectedImages|
    requires s.selectedImages[k].uri == s.images[index].image.uri
    requires forall j :: 0 <= j < k ==> s.selectedImages[j].uri != s.images[index].image.uri
    ensures After(s, p, image, index).selectedImages ==
      s.selectedImages[..k] + s.selectedImages[k + 1..]
  {
    var us, u := Uris(s.selectedImages), s.images[index].image.uri;
    IndexOfFirst(us, u, k);
    SpliceInside(s.selectedImages, k);
  }

  /** Splicing images and then taking URIs is splicing the URIs. */
  lemma UrisSplice(xs: seq<Image>, k: int)
    ensures Uris(Splice1(xs, k)) == Splice1(Uris(xs), k)
  {
    var us := Uris(xs);
    var a := SpliceStart(xs, k);
    assert SpliceStart(us, k) == a;
    if a < |xs| {
      var l, r := Splice1(xs, k), Splice1(us, k);
      assert l == xs[..a] + xs[a + 1..];
      assert r == us[..a] + us[a + 1..];
      forall i | 0 <= i < |r| ensures Uris(l)[i] == r[i] {
        if i < a {
          assert l[i] == xs[i] && r[i] == us[i];
        } else {
          assert l[i] == xs[i + 1] && r[i] == us[i + 1];
        }
      }
    }
  }

  /** `callbackMaximum` fires exactly when a fresh multi-mode index meets the
      maximum and the host supplied one; `callback` fires after it regardless. */
  lemma MaximumCallback(s: State, p: Props, image: Image, index: int)
    requires SelectImage(s, p, image, index).Toggled?
    ensures MaximumReached in SelectImage(s, p, image, index).calls <==>
      index !in s.selected && !p.selectSingleItem && |s.selected| >= p.maximum && p.hasCallbackMaximum
    ensures Rejected(s, p, index) ==>
      SelectImage(s, p, image, index).calls ==
        (if p.hasCallbackMaximum then [MaximumReached] else []) + [SelectionChanged(s.selected, image)]
  {
  }

  /** The state a toggle leaves, whether or not it completed. */
  function After(s: State, p: Props, image: Image, index: int): State {
    SelectImage(s, p, image, index).state
  }

  /**
   With no duplicate indices, deselecting removes exactly that index and keeps
   the other indices in their order.
   */
  lemma DeselectKeepsOrder(s: State, p: Props, image: Image, index: int)
    requires NoDup(s.selected)
    requires index in s.selected
    ensures After(s, p, image, index).selected == Without(s.selected, index)
    ensures index !in After(s, p, image, index).selected
  {
    SpliceFirstIsWithout(s.selected, index);
  }

  /**
   Selecting a fresh index in multi mode below the maximum and then tapping it
   again gives back the prior indices; when the tapped image is the grid's photo
   at that index and its URI was not selected yet, the whole state comes back.
   */
  lemma ToggleTwiceRestores(s: State, p: Props, image: Image, index: int)
    requires index !in s.selected
    requires !p.selectSingleItem && |s.selected| < p.maximum
    requires 0 <= index < |s.images|
    ensures SelectImage(After(s, p, image, index), p, image, index).Toggled?
    ensures After(After(s, p, image, index), p, image, index).selected == s.selected
    ensures image == s.images[index].image && image.uri !in Uris(s.selectedImages) && PropInSync(s) ==>
      After(After(s, p, image, index), p, image, index) == s
  {
    var t := Mutated(s.(selected := s.selected + [index]), s.selectedImages + [image]);
    ScenarioAppend(s, p, image, index, t);
    DeselectAppended(t, p, image, index, s.selected);
    if image == s.images[index].image && image.uri !in Uris(s.selectedImages) && PropInSync(s) {
      RemoveAppendedImage(s, image, s.selected + [index]);
    }
  }

  /** Splicing out an image pushed onto a list without its URI gives the
      earlier state back. */
  lemma RemoveAppendedImage(s: State, image: Image, selected: seq<int>)
    requires image.uri !in Uris(s.selectedImages) && PropInSync(s)
    ensures var t := Mutated(s.(selected := selected), s.selectedImages + [image]);
      Mutated(t.(selected := s.selected),
              Splice1(t.selectedImages, IndexOf(Uris(t.selectedImages), image.uri))) == s
  {
    assert Uris(s.selectedImages + [image]) == Uris(s.selectedImages) + [image.uri];
    AppendedFoundLast(Uris(s.selectedImages), image.uri);
    AppendedFoundLast(s.selectedImages, image);
  }

  /** Deselecting the index appended last gives back the indices before it. */
  lemma DeselectAppended(t: State, p: Props, image: Image, index: int, xs: seq<int>)
    requires t.selected == xs + [index] && index !in xs
    requires 0 <= index < |t.images|
    ensures SelectImage(t, p, image, index) ==
      Toggled(Mutated(t.(selected := xs),
                      Splice1(t.selectedImages, IndexOf(Uris(t.selectedImages), t.images[index].image.uri))),
              [SelectionChanged(xs, image)])
  {
    AppendedFoundLast(xs, index);
  }

  /**
   A deselection whose photo URI is missing from `selectedImages` looks it up
   as -1, and `splice(-1, 1)` then drops the LAST selected image, not the
   tapped one.
   */
  lemma MissingUriDropsLast(s: State, p: Props, image: Image, index: int)
    requires index in s.selected
    requires 0 <= index < |s.images|
    requires s.images[index].image.uri !in Uris(s.selectedImages)
    requires s.selectedImages != []
    ensures After(s, p, image, index).selectedImages == s.selectedImages[..|s.selectedImages| - 1]
  {
  }

  /** In multi mode a toggle never takes the selection above the maximum. */
  lemma KeepsMaximum(s: State, p: Props, image: Image, index: int)
    requires !p.selectSingleItem
    requires |s.selected| <= p.maximum
    ensures |After(s, p, image, index).selected| <= p.maximum
  {
  }

  /** In single-item mode a selection never holds more than one index, and
      a fresh index always replaces it. */
  lemma SingleAtMostOne(s: State, p: Props, image: Image, index: int)
    requires p.selectSingleItem
    requires |s.selected| <= 1
    ensures |After(s, p, image, index).selected| <= 1
    ensures index !in s.selected ==> After(s, p, image, index).selected == [index]
  {
  }

  /** A toggle never introduces a duplicate index. */
  lemma KeepsNoDup(s: State, p: Props, image: Image, index: int)
    requires NoDup(s.selected)
    ensures NoDup(After(s, p, image, index).selected)
  {
    if index in s.selected {
      DeselectKeepsOrder(s, p, image, index);
      WithoutNoDup(s.selected, index);
    } else if !p.selectSingleItem && |s.selected| < p.maximum {
      var t := s.selected + [index];
      forall i, j | 0 <= i < j < |t| ensures t[i] != t[j] {
        if j == |s.selected| {
          assert t[i] == s.selected[i];
        }
      }
    }
  }

  /**
   A tap on a fresh index keeps the selection lists paired, whether it
   replaces, appends or is refused.
   */
  lemma PairedFresh(s: State, p: Props, image: Image, index: int)
    requires Paired(s)
    requires index !in s.selected
    requires 0 <= index < |s.images| && image == s.images[index].image
    ensures Paired(After(s, p, image, index))
  {
    assert After(s, p, image, index) == SelectFresh(s, p, image, index).state;
    if !p.selectSingleItem && |s.selected| < p.maximum {
      var t := After(s, p, image, index);
      forall k | 0 <= k < |t.selected|
        ensures 0 <= t.selected[k] < |t.images| && t.selectedImages[k] == t.images[t.selected[k]].image
      {
        if k < |s.selected| {
          assert t.selected[k] == s.selected[k] && t.selectedImages[k] == s.selectedImages[k];
        }
      }
    }
  }

  /**
   On paired lists over photos with distinct URIs, the image a deselection
   looks up by URI sits at the same position as the index, so both lists lose
   that one position and stay paired.
   */
  lemma PairedDeselect(s: State, p: Props, image: Image, index: int)
    requires Paired(s) && DistinctUris(s.images)
    requires index in s.selected
    ensures SelectImage(s, p, image, index).Toggled?
    ensures Paired(After(s, p, image, index))
  {
    var k := IndexOf(s.selected, index);
    var u := s.images[index].image.uri;
    forall j | 0 <= j < k ensures Uris(s.selectedImages)[j] != u {
      assert s.selected[..k][j] == s.selected[j];
      DistinctAt(s.images, s.selected[j], index);
    }
    IndexOfFirst(Uris(s.selectedImages), u, k);
    SpliceInside(s.selected, k);
    SpliceInside(s.selectedImages, k);
    PairedSplice(s, k, After(s, p, image, index));
  }

  /** Dropping position `k` from both paired lists keeps them paired. */
  lemma PairedSplice(s: State, k: int, t: State)
    requires Paired(s) && 0 <= k < |s.selected|
    requires t.images == s.images
    requires t.selected == s.selected[..k] + s.selected[k + 1..]
    requires t.selectedImages == s.selectedImages[..k] + s.selectedImages[k + 1..]
    ensures Paired(t)
  {
    forall j | 0 <= j < |t.selected|
      ensures 0 <= t.selected[j] < |t.images| && t.selectedImages[j] == t.images[t.selected[j]].image
    {
      if j < k {
        assert t.selected[j] == s.selected[j] && t.selectedImages[j] == s.selectedImages[j];
      } else {
        assert t.selected[j] == s.selected[j + 1] && t.selectedImages[j] == s.selectedImages[j + 1];
      }
    }
  }

  /** A tap on a grid photo keeps the selection lists paired. */
  lemma TapKeepsPaired(s: State, p: Props, image: Image, index: int)
    requires Paired(s) && DistinctUris(s.images)
    requires 0 <= index < |s.images| && image == s.images[index].image
    ensures Paired(After(s, p, image, index))
  {
    if index in s.selected {
      PairedDeselect(s, p, image, index);
    } else {
      PairedFresh(s, p, image, index);
    }
  }

  /**
   On paired lists with distinct indices and photo URIs, a tapped selected
   photo's URI occurs among the selected images, each URI once, and a fresh
   photo's URI does not occur there: the cases `DeselectRemovesImage` and
   `ToggleTwiceRestores` describe.
   */
  lemma PairedUris(s: State, index: int)
    requires Paired(s) && NoDup(s.selected) && DistinctUris(s.images)
    requires 0 <= index < |s.images|
    ensures NoDup(Uris(s.selectedImages))
    ensures index in s.selected ==> s.images[index].image.uri in Uris(s.selectedImages)
    ensures index !in s.selected ==> s.images[index].image.uri !in Uris(s.selectedImages)
  {
    var us := Uris(s.selectedImages);
    forall i, j | 0 <= i < j < |us| ensures us[i] != us[j] {
      DistinctAt(s.images, s.selected[i], s.selected[j]);
    }
    if index in s.selected {
      var k := IndexOf(s.selected, index);
      assert us[k] == s.images[index].image.uri;
    } else {
      forall j | 0 <= j < |us| ensures us[j] != s.images[index].image.uri {
        DistinctAt(s.images, s.selected[j], index);
      }
    }
  }

  /** A sequence of taps: the grid photo and its index. */
  datatype Tap = Tap(image: Image, index: int)

  /** The state after a sequence of taps, continuing past a crashed one with
      the state it left behind. */
  function TapAll(s: State, p: Props, taps: seq<Tap>): State
    decreases |taps|
  {
    if taps == [] then s
    else TapAll(After(s, p, taps[0].image, taps[0].index), p, taps[1..])
  }

  /**
   Whatever the sequence of taps, a multi-mode selection that starts within the
   maximum stays within it and free of duplicate indices; a single-item one
   stays at most one long.
   */
  lemma {:induction false} TapsKeepInvariant(s: State, p: Props, taps: seq<Tap>)
    requires NoDup(s.selected)
    requires |s.selected| <= (if p.selectSingleItem then 1 else p.maximum)
    ensures NoDup(TapAll(s, p, taps).selected)
    ensures |TapAll(s, p, taps).selected| <= (if p.selectSingleItem then 1 else p.maximum)
    decreases |taps|
  {
    if taps != [] {
      var t := taps[0];
      KeepsNoDup(s, p, t.image, t.index);
      if p.selectSingleItem {
        SingleAtMostOne(s, p, t.image, t.index);
      } else {
        KeepsMaximum(s, p, t.image, t.index);
      }
      TapsKeepInvariant(After(s, p, t.image, t.index), p, taps[1..]);
    }
  }

  /**
   Taps on the grid's own photos, over photos with distinct URIs, keep the
   selection lists paired whatever their order.
   */
  lemma {:induction false} TapsKeepPaired(s: State, p: Props, taps: seq<Tap>)
    requires Paired(s) && DistinctUris(s.images)
    requires forall i :: 0 <= i < |taps| ==>
      0 <= taps[i].index < |s.images| && taps[i].image == s.images[taps[i].index].image
    ensures Paired(TapAll(s, p, taps))
    decreases |taps|
  {
    if taps != [] {
      var t := taps[0];
      TapKeepsPaired(s, p, t.image, t.index);
      var rest := taps[1..];
      assert forall i :: 0 <= i < |rest| ==> rest[i] == taps[i + 1];
      TapsKeepPaired(After(s, p, t.image, t.index), p, rest);
    }
  }

  /**
   In multi mode no tap replaces `selectedImages`: whatever the taps, it stays
   the host's array if it was, and the host's array keeps up with it.
   */
  lemma {:induction false} TapsShareHostArray(s: State, p: Props, taps: seq<Tap>)
    requires !p.selectSingleItem
    requires PropInSync(s)
    ensures TapAll(s, p, taps).sharesSelectedProp == s.sharesSelectedProp
    ensures PropInSync(TapAll(s, p, taps))
    decreases |taps|
  {
    if taps != [] {
      var t := After(s, p, taps[0].image, taps[0].index);
      assert PropInSync(t);
      TapsShareHostArray(t, p, taps[1..]);
    }
  }

  /**
   An example: maximum 2, multi mode. Tapping A, B, C selects A and B,
   rejects C with both callbacks, and tapping A again leaves only B.
   */
  lemma MaximumTwoScenario(imgs: seq<Asset>, s0: State)
    requires |imgs| == 3
    requires imgs[0].image.uri != imgs[1].image.uri
    requires s0.images == imgs && s0.selected == [] && s0.selectedImages == []
    ensures var p := DefaultProps().(maximum := 2);
      var a, b, c := imgs[0].image, imgs[1].image, imgs[2].image;
      var r1 := SelectImage(s0, p, a, 0);
      var r2 := SelectImage(r1.state, p, b, 1);
      var r3 := SelectImage(r2.state, p, c, 2);
      var r4 := SelectImage(r3.state, p, a, 0);
      && r1.state.selectedImages == [a] && r2.state.selectedImages == [a, b]
      && r3 == Toggled(r2.state, [MaximumReached, SelectionChanged([0, 1], c)])
      && r4.state.selected == [1] && r4.state.selectedImages == [b]
      && r4.calls == [SelectionChanged([1], a)]
  {
    var p := DefaultProps().(maximum := 2);
    var a, b, c := imgs[0].image, imgs[1].image, imgs[2].image;
    var s1 := Mutated(s0.(selected := [0]), [a]);
    var s2 := Mutated(s1.(selected := [0, 1]), [a, b]);
    ScenarioAppend(s0, p, a, 0, s1);
    ScenarioAppend(s1, p, b, 1, s2);
    ScenarioReject(s2, p, c, 2);
    ScenarioDeselect(s2, p, a);
  }

  lemma ScenarioAppend(s: State, p: Props, image: Image, index: int, t: State)
    requires index !in s.selected && !p.selectSingleItem && |s.selected| < p.maximum
    requires t == Mutated(s.(selected := s.selected + [index]), s.selectedImages + [image])
    ensures SelectImage(s, p, image, index) == Toggled(t, [SelectionChanged(t.selected, image)])
  {
  }

  lemma ScenarioReject(s: State, p: Props, image: Image, index: int)
    requires s.selected == [0, 1] && index == 2 && p == DefaultProps().(maximum := 2)
    ensures SelectImage(s, p, image, index) ==
      Toggled(s, [MaximumReached, SelectionChanged([0, 1], image)])
  {
    assert IndexOf(s.selected, 2) == -1;
  }

  lemma ScenarioDeselect(s: State, p: Props, a: Image)
    requires |s.images| == 3 && s.images[0].image == a && s.images[1].image.uri != a.uri
    requires s.selected == [0, 1] && s.selectedImages == [a, s.images[1].image]
    ensures SelectImage(s, p, a, 0) ==
      Toggled(Mutated(s.(selected := [1]), [s.images[1].image]), [SelectionChanged([1], a)])
  {
    assert IndexOf(s.selected, 0) == 0;
    assert IndexOf(Uris(s.selectedImages), a.uri) == 0;
    assert Splice1(s.selected, 0) == [1];
    assert Splice1(s.selectedImages, 0) == [s.images[1].image];
  }
}
